=== FILE: README.md ===
# ResNet-101 v1d ImageNet trainer: composers, list records and device columns

This project models the three pure pieces of `bin/nnc/imagenet.c`, the ImageNet training
example of the ccv neural-network toolkit (nnc):

- **Network structure composer.** `_building_block_new`, `_block_layer_new` and
  `_imagenet_resnet101_v1d` become pure functions. They build layer descriptors
  (`Layers.Layer`), bottleneck blocks (`Bottleneck.Block`), stages (sequences of blocks) and the
  whole network (`Network.Network`). Each library constructor (`ccv_cnnp_convolution`,
  `ccv_cnnp_max_pool`, `ccv_cnnp_add`, `ccv_cnnp_identity`, `ccv_cnnp_average_pool`,
  `ccv_cnnp_flatten`, `ccv_cnnp_dense`) is a descriptor variant. It records only what the call
  site states: groups, output channels, kernel, stride, padding, normalisation, activation and
  bias.
  The composers are proved against an independent shape inference (`Layers.Apply`,
  `Bottleneck.CheckBlock`, `Stage.CheckChain`, `Network.CheckNetwork`). That inference tracks
  channel counts and the product of declared strides, and it rejects a residual add whose two
  operands differ in either.
- **List-record builder.** The per-line body of `_dataframe_from_disk_new` becomes
  `ListFile.RecordFromEntry`, and the read loop becomes `ListFile.ReadRecords`. The label is
  `c - 1`. The path is built in a 1024-byte buffer. `ListFile.FilenameBuffer` models that buffer
  byte for byte, following `strncpy` semantics. Each `char` of a model string stands for one
  byte of the C string, so lengths and bounds count bytes.
- **Per-device column layout.** The layout in `train_imagenet` becomes `DeviceColumns.Layout`
  and `DeviceColumns.BuildLayout`. The array has `2 * device_count` column ids. Slot `i` copies
  tensors `[2i, 2i+2)` of the batched row to device `i`. Slot `device_count + i` is device `i`'s
  `batch_size x 1000` aux output. The gather loop becomes `DeviceColumns.GatherFitArgs`.

The library calls the code depends on are not modelled. The model fixes their behaviour as seen
from the call site:

- the library constructors are descriptors; the residual add is the `join` layer of a block,
  and shape inference reads it;
- `DeviceColumns.Fetch` is the assumed behaviour of the dataframe iterator: a copy column
  yields its shard's tensors on its device, and an aux column yields its tensor;
- the list file arrives already split into `(class id, file)` entries.

The model follows the code in these places:

- A stage with a block count below 1 still emits its first block. The loop
  `for (i = 1; i < blocks; i++)` simply does not run.
- The code never checks the shapes at a residual add. The shape inference here makes that check
  explicit.
- The two stream contexts `p = 0`, `q = 1` are never swapped in the code. No alternation is
  modelled (see Left out).

## Model

| member | source | states |
|---|---|---|
| `Layers.Join` | bin/nnc/imagenet.c:46-47 | only the add layer joins two inputs; any other layer in that position is an arity error, and the add succeeds exactly when both operands have the same shape |
| `Layers.JoinAdd` | bin/nnc/imagenet.c:46-47 | the residual add succeeds exactly when both operands have the same channel count and declared stride, and then yields that shape; a width mismatch is reported as such |
| `Bottleneck.BuildingBlock` | bin/nnc/imagenet.c:17-53 | the block has a projection shortcut exactly when one is requested; the main path's strides multiply to `strides`; the last main convolution and the projection both produce filters * expansion channels |
| `Bottleneck.BuildingBlockLayout` | bin/nnc/imagenet.c:17-53 | every convolution of a block keeps the spatial size at stride 1 (1x1 with padding 0, 3x3 with padding 1); the stride sits only on the first 1x1 convolution and on the projection; widths are filters, filters, filters * expansion; BN+ReLU, BN+ReLU, BN only; the join is the add, with a ReLU after it; the projection is a bias-free 1x1 convolution to filters * expansion channels exactly when requested |
| `Bottleneck.ProjectionBlockShape` | bin/nnc/imagenet.c:21-47 | a projected block accepts any input: both operands of its add have filters * expansion channels at the same stride, and the block outputs filters * expansion channels at the input stride times `strides` |
| `Bottleneck.IdentityBlockShape` | bin/nnc/imagenet.c:20-47 | an identity-shortcut block is well formed if and only if its input already has filters * expansion channels and its stride is 1; it then leaves the shape unchanged |
| `Stage.BlockLayer` | bin/nnc/imagenet.c:55-67 | a stage holds max(blocks, 1) blocks; the first projects and carries the stage stride; every later block has an identity shortcut and stride 1; every block ends at filters * expansion channels |
| `Stage.IdentityChainShape` | bin/nnc/imagenet.c:61-65 | a chain of identity stride-1 blocks fed filters * expansion channels is well formed at every add and passes its shape through unchanged |
| `Stage.StageShape` | bin/nnc/imagenet.c:55-67 | for any block count, a stage is well formed on any input and outputs filters * expansion channels at the input stride times the stage stride |
| `Stage.StageBlockInputs` | bin/nnc/imagenet.c:59-64 | each block after the first is fed the previous block's output, with filters * expansion channels at the stage's stride, which is what its identity shortcut needs |
| `Network.ResNet101V1d` | bin/nnc/imagenet.c:69-103 | the network has a 4-layer stem and 4 stages holding 33 blocks in all, and its head ends in a softmax dense layer to 1000 classes |
| `Network.ResNet101Structure` | bin/nnc/imagenet.c:72-101 | the stem is three 3x3 padding-1 BN+ReLU convolutions of widths 32, 32, 64 and strides 2, 1, 1, then a 3x3 stride-2 padding-1 max pool; the stages are bottleneck layers of width 64, 128, 256, 512 with expansion 4, strides 1, 2, 2, 2 and 3, 4, 23, 3 blocks (33 in all), each block's 3x3 convolution at the stage width and its last convolution at 4 times it; the head is global average pooling, flattening and a softmax dense layer to 1000 classes |
| `Network.ResNet101Shapes` | bin/nnc/imagenet.c:71-102 | from a 3-channel image the stem yields 64 channels at stride 4; the stages yield 256, 512, 1024 and 2048 channels at strides 4, 8, 16 and 32; every add agrees; the product of declared strides before the average pool is 32; the output has 1000 channels |
| `ListFile.StrNCopy` | bin/nnc/imagenet.c:194-197 | `strncpy` writes exactly `n` bytes: the source's characters up to `n`, then NUL padding |
| `ListFile.TerminatedPrefix` | bin/nnc/imagenet.c:198-199 | the C string a buffer holds is the part before its first NUL, and there is none exactly when the buffer holds no NUL |
| `ListFile.FilenameBuffer` | bin/nnc/imagenet.c:185-197 | with a base directory that fits, the 1024-byte buffer starts with the directory and '/', followed by the file name cut at 1024 - dirlen and then NUL padding; without one, it holds the file name cut at 1024 and padded |
| `ListFile.AsWrittenBufferUnterminated` | bin/nnc/imagenet.c:197 | as written, when the file name is at least 1024 - dirlen characters long, the buffer holds no terminating NUL |
| `ListFile.AsWrittenBufferExample` | bin/nnc/imagenet.c:192-197 | base directory "/data" with a 1018-character file name leaves the buffer unterminated |
| `ListFile.AsWrittenAgreesWhenFits` | bin/nnc/imagenet.c:192-197 | when the file name leaves room for the NUL, the buffer reads back as exactly base_dir + '/' + file (or file), which is also the corrected path |
| `ListFile.RecordPath` | bin/nnc/imagenet.c:191-197 | the record path is the prefix of base_dir + '/' + file (or of file) cut at 1023 characters: the whole of it when it fits, exactly 1023 characters otherwise |
| `ListFile.CorrectedFilenameBuffer` | bin/nnc/imagenet.c:191-197 | the corrected buffer is always NUL-terminated and reads back as the record path |
| `ListFile.RecordFromEntry` | bin/nnc/imagenet.c:201-202 | the category is the 1-indexed class id minus one, with no range check; it lies in [0, 1000) exactly when the class id lies in [1, 1000]; the path is the record path, which is base_dir + '/' + file (or file) whenever that fits in 1023 characters |
| `ListFile.CatExample` | bin/nnc/imagenet.c:192-202 | the line "3 cat.jpg" under base directory "/data" yields category 2 and path "/data/cat.jpg" |
| `ListFile.ReadRecords` | bin/nnc/imagenet.c:189-204 | one record per entry, in file order |
| `DeviceColumns.Layout` | bin/nnc/imagenet.c:137-146 | the column array has 2 * device_count slots; slot j copies shard j to device j, and slot device_count + j is device j's batch_size x 1000 aux output |
| `DeviceColumns.BuildLayout` | bin/nnc/imagenet.c:137-146 | the set-up loop, writing slots i and device_count + i in iteration i, fills the array with exactly that layout |
| `DeviceColumns.ShardsPartitionBatch` | bin/nnc/imagenet.c:135-142 | the device shards partition the batched row: distinct slots read disjoint tensors; tensor t in [0, 2 * device_count) is read by device t / 2's copy column; only copy columns read, and only inside that range |
| `DeviceColumns.SlotsBijective` | bin/nnc/imagenet.c:137-147 | every slot has one device and one role: slot k is device k's copy when k < device_count, and device k - device_count's aux output otherwise; all slots are distinct |
| `DeviceColumns.Fetch` | bin/nnc/imagenet.c:142-147 | the assumed iterator behaviour for one column: a copy column yields `count` tensors, all on its device, and they are exactly the batched-row tensors the column reads; an aux column yields its own tensor |
| `DeviceColumns.FetchLayout` | bin/nnc/imagenet.c:147-163 | one `iter_next` over the column array yields, in slot j, device j's image tensor 2j and label tensor 2j + 1 on device j, and in slot device_count + j device j's batch_size x 1000 aux tensor, which is what the gather loop assumes |
| `DeviceColumns.GatherFitArgs` | bin/nnc/imagenet.c:165-170 | the gather loop takes device j's input and target from slot j and its output from slot device_count + j |
| `DeviceColumns.FitStep` | bin/nnc/imagenet.c:137-171 | reading the layout back with the same indexing gives device j the image tensor 2j and the label tensor 2j + 1 of the batched row, both on device j, and its own aux tensor as output |

## Left out

- Stream contexts, prefetch, wait, fit, checkpoint, data-parallel set-up and the timing print of
  the training loop (bin/nnc/imagenet.c:148-176). They express GPU stream concurrency inside an
  engine that is not part of this model. The indices `p = 0`, `q = 1` never swap there, so no
  alternation is modelled.
- The semantics of every `ccv_cnnp_*` and `ccv_nnc_*` call: convolution, batch norm, SGD,
  cross-entropy, batching, shuffling and one-hot encoding. These are foreign library code. Only
  their call-site parameters are kept, as descriptors. `DeviceColumns.Fetch` states the assumed
  behaviour of the dataframe iterator.
- Image augmentation parameters, the learning rate and the SGD coefficients
  (bin/nnc/imagenet.c:109-132). These are floating-point configuration handed to the library.
- Opening and reading the list file, and the `fscanf("%d %s")` tokenisation
  (bin/nnc/imagenet.c:183-189, 205-208). Entries arrive already split. The unbounded `%s` into
  the 1024-byte token buffer is not modelled, so file names of any length are accepted.
- The `.dot` graph export, the memory-size print and the wall-clock timer
  (bin/nnc/imagenet.c:10-15, 112-114, 174-175). These are I/O and clocks.
- Command-line parsing in `main` (bin/nnc/imagenet.c:211-251). This is plumbing.
- Spatial sizes. Shape inference tracks declared strides only, not the rounded output sizes of
  convolutions and pools. The global average pool (kernel 0) keeps the tracked stride.
- Bottleneck.ProjectionBlockShape: widths and strides are unbounded integers, so 32-bit overflow of `filters * expansion` is not modelled. The call sites use at most 2048.
- ListFile.FilenameBuffer: requires the base directory and its '/' to fit in the 1024-byte buffer. For a base directory of 1024 or more characters the source writes '/' past the buffer (bin/nnc/imagenet.c:195) and passes a negative size to `strncpy` (bin/nnc/imagenet.c:197), which is undefined behaviour with no result to model; `ListFile.RecordPath` truncates such paths instead.
- ListFile.FilenameBuffer: each `char` of the base directory and the file name stands for one byte. A name in a multi-byte encoding such as UTF-8 must be given as the sequence of its bytes, and every bound (`dirlen`, 1024, 1024 - dirlen) counts bytes, as `strlen` and `strncpy` do. Decoding bytes into characters is not modelled.
- ListFile.RecordFromEntry: the category `c - 1` is computed on unbounded integers, so the undefined overflow of `c - 1` at `INT_MIN` is not modelled. The path is the corrected one (see Findings), not the as-written buffer.

## Findings

| source | as written | input that shows it | evidently intended | confidence | as-written member | corrected member |
|---|---|---|---|---|---|---|
| bin/nnc/imagenet.c:197 | `strncpy(filename + dirlen, file, 1024 - dirlen)` writes no terminating NUL when the file name has at least `1024 - dirlen` characters, so the path handed to the dataframe is not a C string | base directory "/data" (dirlen 6) and a 1018-character file name | the path is `base_dir/file` cut to fit the buffer with its NUL (at most 1023 characters) | not executed; high, from the C library's definition of `strncpy` | `ListFile.AsWrittenBufferUnterminated` (on `ListFile.FilenameBuffer`) | `ListFile.CorrectedFilenameBuffer` (on `ListFile.RecordPath`) |

=== FILE: bottleneck.dfy ===
/**
 * One residual bottleneck unit (`_building_block_new`): an optional 1x1
 * projection on the shortcut, a 1x1 / 3x3 / 1x1 main path, an elementwise
 * add of the two, and a ReLU identity after the add.
 */
module Bottleneck {
  import opened Results
  import opened Layers

  datatype Shortcut = IdentityShortcut | Projection(conv: Layer)

  /** `join` combines the output of `expand` with the shortcut; `post` follows it. */
  datatype Block = Block(shortcut: Shortcut, reduce: Layer, spatial: Layer, expand: Layer, join: Layer, post: Layer)

  /** Width of the block output, `filters * expansion`. */
  function Width(filters: int, expansion: int): int
  {
    filters * expansion
  }

  /**
   * The block a call builds: projected exactly when asked, with its whole
   * main-path stride on the first convolution and `filters * expansion`
   * output channels.
   */
  function BuildingBlock(filters: int, expansion: int, strides: int, projection: bool): (b: Block)
    ensures b.shortcut.Projection? <==> projection
    ensures MainStride(b) == strides
    ensures b.expand.Convolution? && b.expand.filters == Width(filters, expansion)
    ensures projection ==> b.shortcut.conv.Convolution? && b.shortcut.conv.filters == Width(filters, expansion)
  {
    var shortcut :=
      if projection
      then Projection(Convolution(1, Width(filters, expansion), 1, strides, 0, NoNorm, NoActivation, true))
      else IdentityShortcut;
    Block(
      shortcut,
      Convolution(1, filters, 1, strides, 0, BatchNorm, Relu, false),
      Convolution(1, filters, 3, 1, 1, BatchNorm, Relu, false),
      Convolution(1, Width(filters, expansion), 1, 1, 0, BatchNorm, NoActivation, false),
      Add,
      Identity(Relu))
  }

  /** Shape of the block output, or the reason the residual add is ill-formed. */
  function CheckBlock(b: Block, s: Shape): Result<Shape, ShapeError>
  {
    var short :- match b.shortcut
      case IdentityShortcut => Ok(s)
      case Projection(conv) => Apply(conv, s);
    var reduced :- Apply(b.reduce, s);
    var spatial :- Apply(b.spatial, reduced);
    var main :- Apply(b.expand, spatial);
    var joined :- Join(b.join, main, short);
    Apply(b.post, joined)
  }

  /** Product of the strides declared along the main path. */
  function MainStride(b: Block): int
  {
    StrideOf(b.reduce) * StrideOf(b.spatial) * StrideOf(b.expand)
  }

  /**
   * Stride placement: every convolution of the block keeps the spatial size
   * at stride 1 (1x1 with padding 0, 3x3 with padding 1), the whole stride
   * sits on the first 1x1 convolution (and on the projection, when there is
   * one), and the normalisation / activation pattern is BN+ReLU, BN+ReLU, BN.
   */
  lemma BuildingBlockLayout(filters: int, expansion: int, strides: int, projection: bool)
    ensures var b := BuildingBlock(filters, expansion, strides, projection);
      && SizePreserving(b.reduce) && SizePreserving(b.spatial) && SizePreserving(b.expand)
      && b.reduce.kernel == 1 && b.spatial.kernel == 3 && b.expand.kernel == 1
      && b.reduce.stride == strides && b.spatial.stride == 1 && b.expand.stride == 1
      && MainStride(b) == strides
      && b.reduce.filters == filters && b.spatial.filters == filters
      && b.expand.filters == Width(filters, expansion)
      && b.reduce.activation == Relu && b.spatial.activation == Relu && b.expand.activation == NoActivation
      && b.reduce.norm == BatchNorm && b.spatial.norm == BatchNorm && b.expand.norm == BatchNorm
      && b.join == Add && b.post == Identity(Relu)
      && (b.shortcut.Projection? <==> projection)
      && (projection ==>
            && SizePreserving(b.shortcut.conv)
            && b.shortcut.conv.kernel == 1 && b.shortcut.conv.padding == 0
            && b.shortcut.conv.activation == NoActivation
            && b.shortcut.conv.stride == strides
            && b.shortcut.conv.filters == Width(filters, expansion)
            && b.shortcut.conv.noBias
            && b.shortcut.conv.norm == NoNorm)
  {
  }

  /**
   * A projected block accepts any input: both operands of its add have
   * `filters * expansion` channels and the same declared stride, and the
   * block output is that width at the input stride times `strides`.
   */
  lemma ProjectionBlockShape(filters: int, expansion: int, strides: int, s: Shape)
    ensures CheckBlock(BuildingBlock(filters, expansion, strides, true), s)
         == Ok(Shape(Width(filters, expansion), s.stride * strides))
  {
  }

  /**
   * An identity-shortcut block is well formed exactly when its input already
   * has `filters * expansion` channels and its stride is 1; it then leaves
   * the shape unchanged.
   */
  lemma IdentityBlockShape(filters: int, expansion: int, strides: int, s: Shape)
    requires s.stride != 0
    ensures CheckBlock(BuildingBlock(filters, expansion, strides, false), s).Ok?
        <==> s.channels == Width(filters, expansion) && strides == 1
    ensures CheckBlock(BuildingBlock(filters, expansion, strides, false), s).Ok?
        ==> CheckBlock(BuildingBlock(filters, expansion, strides, false), s).value == s
  {
    if s.stride * strides == s.stride {
      assert s.stride * (strides - 1) == 0;
      assert strides == 1;
    }
  }
}

=== FILE: columns.dfy ===
/**
 * Per-device column layout of the training loop: an array of
 * `2 * device_count` column ids whose first half copies each device's shard
 * of the batched row to that device and whose second half holds each
 * device's auxiliary output tensor; and the gather that reads them back into
 * the per-device inputs, targets and outputs of one fit step.
 */
module DeviceColumns {
  import opened ImageNet

  /** Number of tensors each device's shard takes from the batched row: an image batch and a label batch. */
  const ShardWidth: nat := 2

  /**
   * A derived dataframe column: a copy to `device` of the tensors
   * `[offset, offset + count)` of the batched row, or an auxiliary
   * `rows x classes` tensor on `device`.
   */
  datatype Column =
    | CopyToDevice(offset: int, count: nat, device: int)
    | AuxOutput(device: int, rows: int, classes: int)

  /** Tensor identities: tensor `slot` of the batched row placed on `device`, or an auxiliary tensor. */
  datatype Tensor =
    | BatchTensor(slot: int, device: int)
    | AuxTensor(device: int, rows: int, classes: int)

  /** What the iterator yields for one column: a list of tensors for a copy, a tensor for an aux column. */
  datatype ColumnValue = TensorList(tensors: seq<Tensor>) | TensorValue(tensor: Tensor)

  /** The per-device arguments of one fit step. */
  datatype FitArgs = FitArgs(inputs: seq<Tensor>, targets: seq<Tensor>, outputs: seq<Tensor>)

  function ShardColumn(device: int): Column
  {
    CopyToDevice(device * ShardWidth, ShardWidth, device)
  }

  function AuxColumn(device: int, batchSize: int): Column
  {
    AuxOutput(device, batchSize, ClassCount)
  }

  /** The column array: device copies first, then device aux outputs. */
  function Layout(deviceCount: nat, batchSize: int): (cols: seq<Column>)
    ensures |cols| == 2 * deviceCount
    ensures forall j :: 0 <= j < deviceCount ==>
              cols[j] == ShardColumn(j) && cols[deviceCount + j] == AuxColumn(j, batchSize)
  {
    seq(deviceCount, i => ShardColumn(i)) + seq(deviceCount, i => AuxColumn(i, batchSize))
  }

  /** The set-up loop: slot `i` and slot `device_count + i` are written in iteration `i`. */
  method BuildLayout(deviceCount: nat, batchSize: int) returns (cols: seq<Column>)
    ensures cols == Layout(deviceCount, batchSize)
  {
    var slots := new Column[2 * deviceCount](_ => AuxColumn(0, batchSize));
    var i := 0;
    while i < deviceCount
      invariant 0 <= i <= deviceCount
      invariant forall k :: 0 <= k < i ==>
                  slots[k] == ShardColumn(k) && slots[deviceCount + k] == AuxColumn(k, batchSize)
    {
      slots[i] := ShardColumn(i);
      slots[deviceCount + i] := AuxColumn(i, batchSize);
      i := i + 1;
    }
    cols := slots[..];
    assert forall k :: 0 <= k < 2 * deviceCount ==> cols[k] == Layout(deviceCount, batchSize)[k] by {
      forall k | 0 <= k < 2 * deviceCount
        ensures cols[k] == Layout(deviceCount, batchSize)[k]
      {
        if k >= deviceCount {
          assert slots[deviceCount + (k - deviceCount)] == AuxColumn(k - deviceCount, batchSize);
        }
      }
    }
  }

  /** Whether a column reads tensor `t` of the batched row. */
  predicate Reads(c: Column, t: int)
  {
    c.CopyToDevice? && c.offset <= t < c.offset + c.count
  }

  /**
   * The device shards partition the batched row: distinct devices read
   * disjoint tensors, and every tensor in `[0, 2 * device_count)` is read by
   * exactly the copy column of device `t / 2`, and by no aux column.
   */
  lemma ShardsPartitionBatch(deviceCount: nat, batchSize: int)
    ensures var cols := Layout(deviceCount, batchSize);
      && (forall i, j, t :: 0 <= i < j < 2 * deviceCount && Reads(cols[i], t) ==> !Reads(cols[j], t))
      && (forall t :: 0 <= t < 2 * deviceCount ==> Reads(cols[t / 2], t))
      && (forall i, t :: 0 <= i < 2 * deviceCount && Reads(cols[i], t) ==>
            i < deviceCount && 0 <= t < 2 * deviceCount && t / 2 == i)
  {
    var cols := Layout(deviceCount, batchSize);
    forall i, t | 0 <= i < 2 * deviceCount && Reads(cols[i], t)
      ensures i < deviceCount && 0 <= t < 2 * deviceCount && t / 2 == i
    {
      assert 2 * i <= t < 2 * i + 2;
    }
  }

  /**
   * The assumed behaviour of the dataframe iterator for one column: a copy
   * column yields, on its device, exactly the batched-row tensors it reads,
   * each once; an aux column yields its own tensor.
   */
  function Fetch(c: Column): (v: ColumnValue)
    ensures v.TensorList? <==> c.CopyToDevice?
    ensures c.CopyToDevice? ==> |v.tensors| == c.count
    ensures c.CopyToDevice? ==> forall t :: Reads(c, t) <==> BatchTensor(t, c.device) in v.tensors
    ensures v.TensorList? ==> forall x :: x in v.tensors ==> x.BatchTensor? && x.device == c.device
    ensures c.AuxOutput? ==> v.tensor == AuxTensor(c.device, c.rows, c.classes)
  {
    match c
    case CopyToDevice(offset, count, device) =>
      var tensors := seq(count, k => BatchTensor(offset + k, device));
      assert forall t :: Reads(c, t) ==> tensors[t - offset] == BatchTensor(t, device);
      TensorList(tensors)
    case AuxOutput(device, rows, classes) => TensorValue(AuxTensor(device, rows, classes))
  }

  /** One `iter_next`: a value per column id, in the order of the ids. */
  function FetchAll(cols: seq<Column>): (values: seq<ColumnValue>)
    ensures |values| == |cols|
    ensures forall k :: 0 <= k < |cols| ==> values[k] == Fetch(cols[k])
  {
    seq(|cols|, k requires 0 <= k < |cols| => Fetch(cols[k]))
  }

  /** The shape the gather loop relies on: each device's slot holds two tensors, its aux slot one. */
  predicate FitReady(deviceCount: nat, fetched: seq<ColumnValue>)
  {
    && |fetched| == 2 * deviceCount
    && (forall j :: 0 <= j < deviceCount ==> fetched[j].TensorList? && |fetched[j].tensors| >= 2)
    && (forall j :: deviceCount <= j < 2 * deviceCount ==> fetched[j].TensorValue?)
  }

  /** The gather loop: input and target from slot `j`, output from slot `device_count + j`. */
  method GatherFitArgs(deviceCount: nat, fetched: seq<ColumnValue>) returns (args: FitArgs)
    requires FitReady(deviceCount, fetched)
    ensures |args.inputs| == |args.targets| == |args.outputs| == deviceCount
    ensures forall j :: 0 <= j < deviceCount ==>
              && args.inputs[j] == fetched[j].tensors[0]
              && args.targets[j] == fetched[j].tensors[1]
              && args.outputs[j] == fetched[deviceCount + j].tensor
  {
    var inputs, targets, outputs := [], [], [];
    var j := 0;
    while j < deviceCount
      invariant 0 <= j <= deviceCount
      invariant |inputs| == |targets| == |outputs| == j
      invariant forall k :: 0 <= k < j ==>
                  && inputs[k] == fetched[k].tensors[0]
                  && targets[k] == fetched[k].tensors[1]
                  && outputs[k] == fetched[deviceCount + k].tensor
    {
      inputs := inputs + [fetched[j].tensors[0]];
      targets := targets + [fetched[j].tensors[1]];
      outputs := outputs + [fetched[deviceCount + j].tensor];
      j := j + 1;
    }
    args := FitArgs(inputs, targets, outputs);
  }

  /**
   * What one `iter_next` over the column array yields: device `j`'s slot
   * holds the image tensor `2j` and the label tensor `2j + 1` on device `j`,
   * and slot `device_count + j` holds device `j`'s aux tensor; so the gather
   * loop's assumptions hold.
   */
  lemma FetchLayout(deviceCount: nat, batchSize: int)
    ensures var fetched := FetchAll(Layout(deviceCount, batchSize));
      && FitReady(deviceCount, fetched)
      && (forall j :: 0 <= j < deviceCount ==>
            fetched[j] == TensorList([BatchTensor(2 * j, j), BatchTensor(2 * j + 1, j)]))
      && (forall j :: deviceCount <= j < 2 * deviceCount ==>
            fetched[j] == TensorValue(AuxTensor(j - deviceCount, batchSize, ClassCount)))
  {
    var cols := Layout(deviceCount, batchSize);
    var fetched := FetchAll(cols);
    forall j | 0 <= j < 2 * deviceCount
      ensures j < deviceCount ==> fetched[j] == TensorList([BatchTensor(2 * j, j), BatchTensor(2 * j + 1, j)])
      ensures j >= deviceCount ==> fetched[j] == TensorValue(AuxTensor(j - deviceCount, batchSize, ClassCount))
    {
      if j >= deviceCount {
        assert cols[deviceCount + (j - deviceCount)] == AuxColumn(j - deviceCount, batchSize);
      } else {
        assert Fetch(cols[j]).tensors == [BatchTensor(2 * j, j), BatchTensor(2 * j + 1, j)];
      }
    }
  }

  /**
   * Reading the layout back with the same indexing hands device `j` the
   * image tensor `2j` and the label tensor `2j + 1` of the batched row, both
   * on device `j`, and its own `batch_size x 1000` aux tensor as output.
   */
  method FitStep(deviceCount: nat, batchSize: int) returns (args: FitArgs)
    ensures |args.inputs| == |args.targets| == |args.outputs| == deviceCount
    ensures forall j :: 0 <= j < deviceCount ==>
              && args.inputs[j] == BatchTensor(2 * j, j)
              && args.targets[j] == BatchTensor(2 * j + 1, j)
              && args.outputs[j] == AuxTensor(j, batchSize, ClassCount)
  {
    var cols := BuildLayout(deviceCount, batchSize);
    var fetched := FetchAll(cols);
    FetchLayout(deviceCount, batchSize);
    args := GatherFitArgs(deviceCount, fetched);
    forall j | 0 <= j < deviceCount
      ensures && args.inputs[j] == BatchTensor(2 * j, j)
              && args.targets[j] == BatchTensor(2 * j + 1, j)
              && args.outputs[j] == AuxTensor(j, batchSize, ClassCount)
    {
      assert fetched[deviceCount + j] == TensorValue(AuxTensor(j, batchSize, ClassCount));
    }
  }

  /**
   * Each slot of the column array is used by exactly one device in exactly
   * one role: slot `k` is device `k`'s shard copy when `k < device_count`
   * and device `k - device_count`'s aux output otherwise.
   */
  lemma SlotsBijective(deviceCount: nat, batchSize: int)
    ensures var cols := Layout(deviceCount, batchSize);
      && (forall k :: 0 <= k < 2 * deviceCount ==>
            (cols[k].CopyToDevice? <==> k < deviceCount)
            && (cols[k].CopyToDevice? ==> cols[k].device == k)
            && (cols[k].AuxOutput? ==> cols[k].device == k - deviceCount))
      && (forall k, m :: 0 <= k < m < 2 * deviceCount ==> cols[k] != cols[m])
  {
    var cols := Layout(deviceCount, batchSize);
    forall k | 0 <= k < 2 * deviceCount
      ensures (cols[k].CopyToDevice? <==> k < deviceCount)
              && (cols[k].CopyToDevice? ==> cols[k].device == k)
              && (cols[k].AuxOutput? ==> cols[k].device == k - deviceCount)
    {
      if k >= deviceCount {
        assert cols[deviceCount + (k - deviceCount)] == AuxColumn(k - deviceCount, batchSize);
      }
    }
  }
}

=== FILE: imagenet.dfy ===
/** Dataset constants shared by the network, the list records and the column layout. */
module ImageNet {

  /** Number of ImageNet classes: the dense head's width and the one-hot label width. */
  const ClassCount: int := 1000

  /** Channels of the input images the model is compiled for (NCHW, 3 x 224 x 224). */
  const ImageChannels: int := 3
}

=== FILE: layers.dfy ===
/**
 * Layer descriptors: each opaque library constructor used by the network
 * builder (`ccv_cnnp_convolution`, `ccv_cnnp_max_pool`, `ccv_cnnp_add`,
 * `ccv_cnnp_identity`, `ccv_cnnp_average_pool`, `ccv_cnnp_flatten`,
 * `ccv_cnnp_dense`) becomes a variant that records only what its call site
 * states. No tensor arithmetic is modelled.
 *
 * Shape inference is the independent check the composers are proved
 * against: a `Shape` tracks the channel count and the product of the
 * strides declared since the network input.
 */
module Layers {
  import opened Results

  /** Fused activation; `NoActivation` is the zero value of the parameter record. */
  datatype Activation = NoActivation | Relu | Softmax

  /** Fused normalisation; `NoNorm` is the zero value of the parameter record. */
  datatype Norm = NoNorm | BatchNorm

  /**
   * Kernels and hints are square at every call site, so one integer stands
   * for both dimensions. A kernel of 0 for `AveragePool` means global pooling.
   */
  datatype Layer =
    | Convolution(groups: int, filters: int, kernel: int, stride: int, padding: int,
                  norm: Norm, activation: Activation, noBias: bool)
    | MaxPool(kernel: int, stride: int, padding: int)
    | AveragePool(kernel: int)
    | Flatten
    | Dense(count: int, activation: Activation)
    | Add
    | Identity(activation: Activation)

  /** Channel count and cumulative declared stride of a symbolic tensor. */
  datatype Shape = Shape(channels: int, stride: int)

  datatype ShapeError =
    | ArityMismatch                              // a layer applied to the wrong number of inputs
    | ChannelMismatch(main: int, shortcut: int)  // the residual add sees different widths
    | StrideMismatch(main: int, shortcut: int)   // the residual add sees different resolutions

  /** A convolution whose padding keeps the spatial size at stride 1. */
  predicate SizePreserving(l: Layer)
  {
    l.Convolution? && 2 * l.padding + 1 == l.kernel
  }

  /** Declared stride of a layer; layers without a hint keep the resolution. */
  function StrideOf(l: Layer): int
  {
    if l.Convolution? || l.MaxPool? then l.stride else 1
  }

  /** Shape of a one-input layer's output. */
  function Apply(l: Layer, s: Shape): Result<Shape, ShapeError>
  {
    match l
    case Convolution(_, filters, _, stride, _, _, _, _) => Ok(Shape(filters, s.stride * stride))
    case MaxPool(_, stride, _) => Ok(Shape(s.channels, s.stride * stride))
    case AveragePool(_) => Ok(s)
    case Flatten => Ok(s)
    case Dense(count, _) => Ok(Shape(count, s.stride))
    case Add => Err(ArityMismatch)
    case Identity(_) => Ok(s)
  }

  /** Shape after applying `layers` in order, as a sequential model does. */
  function ApplyAll(layers: seq<Layer>, s: Shape): Result<Shape, ShapeError>
    decreases |layers|
  {
    if |layers| == 0 then Ok(s)
    else
      var next :- Apply(layers[0], s);
      ApplyAll(layers[1..], next)
  }

  /** Shape of a two-input layer's output: only `Add` takes two inputs. */
  function Join(l: Layer, main: Shape, shortcut: Shape): (r: Result<Shape, ShapeError>)
    ensures r.Ok? <==> l.Add? && main == shortcut
    ensures !l.Add? ==> r == Err(ArityMismatch)
  {
    if l.Add? then JoinAdd(main, shortcut) else Err(ArityMismatch)
  }

  /** The elementwise add: both operands must agree in width and resolution. */
  function JoinAdd(main: Shape, shortcut: Shape): (r: Result<Shape, ShapeError>)
    ensures r.Ok? <==> main == shortcut
    ensures r.Ok? ==> r.value == main
    ensures r.Err? && main.channels != shortcut.channels ==> r.error == ChannelMismatch(main.channels, shortcut.channels)
  {
    if main.channels != shortcut.channels then Err(ChannelMismatch(main.channels, shortcut.channels))
    else if main.stride != shortcut.stride then Err(StrideMismatch(main.stride, shortcut.stride))
    else Ok(main)
  }
}

=== FILE: listfile.dfy ===
/**
 * The per-line body of `_dataframe_from_disk_new`: each `(class id, file)`
 * pair of the list file becomes a record with a 0-indexed label and a path
 * built in a 1024-byte buffer, optionally prefixed by a base directory.
 * Reading the file and splitting it into pairs is not modelled: the entries
 * arrive already split.
 *
 * Strings here are C strings: each `char` stands for one byte, so a file
 * name in a multi-byte encoding such as UTF-8 is the sequence of its bytes,
 * and every length and bound below counts bytes, as `strlen` does.
 */
module ListFile {
  import opened Results
  import opened ImageNet

  /** Size of the buffer each record's path is built in. */
  const BufferSize: nat := 1024

  /** Longest path that fits in the buffer together with its terminating NUL. */
  const MaxPathLength: nat := BufferSize - 1

  /**
   * One parsed line of the list file: a 1-indexed class id and a file name,
   * one `char` per byte of the name.
   */
  datatype ListEntry = ListEntry(classId: int, file: string)

  /** One record of the dataframe: a 0-indexed category and the image path. */
  datatype Categorized = Categorized(category: int, path: string)

  /** A C string: characters up to, and not including, the terminating NUL. */
  predicate CString(s: seq<char>)
  {
    forall k :: 0 <= k < |s| ==> s[k] != '\0'
  }

  /** `dirlen`: the base directory and its separator, or nothing. */
  function DirLength(baseDir: Option<string>): nat
  {
    match baseDir
    case None => 0
    case Some(dir) => |dir| + 1
  }

  /** What `strncpy(dst, src, n)` writes: `src` cut at `n`, padded with NULs up to `n`. */
  function StrNCopy(src: string, n: nat): (dst: seq<char>)
    requires CString(src)
    ensures |dst| == n
    ensures forall k :: 0 <= k < n ==> dst[k] == (if k < |src| then src[k] else '\0')
  {
    if |src| >= n then src[..n] else src + seq(n - |src|, _ => '\0')
  }

  /** The C string a buffer holds: its characters before the first NUL, if it has one. */
  function TerminatedPrefix(buf: seq<char>): (r: Option<string>)
    ensures r.None? <==> CString(buf)
    ensures r.Some? ==> && |r.value| < |buf| && r.value == buf[..|r.value|]
                        && buf[|r.value|] == '\0' && CString(r.value)
    decreases |buf|
  {
    if |buf| == 0 then None
    else if buf[0] == '\0' then Some([])
    else
      match TerminatedPrefix(buf[1..])
      case None => None
      case Some(rest) => Some([buf[0]] + rest)
  }

  /** A C string followed by a NUL is what the buffer reads back as. */
  lemma {:induction false} TerminatedPrefixOf(s: string, rest: seq<char>)
    requires CString(s)
    ensures TerminatedPrefix(s + ['\0'] + rest) == Some(s)
    decreases |s|
  {
    var buf := s + ['\0'] + rest;
    if |s| > 0 {
      assert buf[1..] == s[1..] + ['\0'] + rest;
      TerminatedPrefixOf(s[1..], rest);
      assert [s[0]] + s[1..] == s;
    }
  }

  /**
   * The buffer as the source fills it: `strncpy(filename, base_dir, 1024)`,
   * then `filename[dirlen - 1] = '/'`, then
   * `strncpy(filename + dirlen, file, 1024 - dirlen)`. The separator write is
   * in bounds only when the base directory and its separator fit.
   */
  function FilenameBuffer(baseDir: Option<string>, file: string): (buf: seq<char>)
    requires CString(file)
    requires baseDir.Some? ==> CString(baseDir.value) && |baseDir.value| + 1 <= BufferSize
    ensures |buf| == BufferSize
    ensures baseDir.Some? ==> buf[..DirLength(baseDir)] == baseDir.value + "/"
    ensures forall k :: DirLength(baseDir) <= k < BufferSize ==>
              buf[k] == (if k - DirLength(baseDir) < |file| then file[k - DirLength(baseDir)] else '\0')
  {
    var dirlen := DirLength(baseDir);
    var prefix :=
      match baseDir
      case None => []
      case Some(dir) => StrNCopy(dir, BufferSize)[dirlen - 1 := '/'][..dirlen];
    assert baseDir.Some? ==> prefix == baseDir.value + "/";
    prefix + StrNCopy(file, BufferSize - dirlen)
  }

  /** The path the record is meant to carry: `base_dir/file`, or `file` alone. */
  function FullPath(baseDir: Option<string>, file: string): string
  {
    match baseDir
    case None => file
    case Some(dir) => dir + "/" + file
  }

  /**
   * The record's path: the full path, cut so that it fits in the buffer
   * with its terminating NUL.
   */
  function RecordPath(baseDir: Option<string>, file: string): (path: string)
    ensures |path| <= MaxPathLength
    ensures path <= FullPath(baseDir, file)
    ensures |path| == |FullPath(baseDir, file)| <==> |FullPath(baseDir, file)| <= MaxPathLength
    ensures |path| == if |FullPath(baseDir, file)| <= MaxPathLength then |FullPath(baseDir, file)| else MaxPathLength
  {
    var full := FullPath(baseDir, file);
    if |full| <= MaxPathLength then full else full[..MaxPathLength]
  }

  /** The buffer filled with `RecordPath`, padded with NULs. */
  function CorrectedFilenameBuffer(baseDir: Option<string>, file: string): (buf: seq<char>)
    requires CString(file)
    requires baseDir.Some? ==> CString(baseDir.value)
    ensures |buf| == BufferSize
    ensures TerminatedPrefix(buf) == Some(RecordPath(baseDir, file))
  {
    var path := RecordPath(baseDir, file);
    assert CString(path) by {
      forall k | 0 <= k < |path| ensures path[k] != '\0' {
        var full := FullPath(baseDir, file);
        assert path[k] == full[k];
        if baseDir.Some? && k >= |baseDir.value| + 1 {
          assert full[k] == file[k - |baseDir.value| - 1];
        }
      }
    }
    var buf := StrNCopy(path, BufferSize);
    assert buf == path + ['\0'] + buf[|path| + 1..];
    TerminatedPrefixOf(path, buf[|path| + 1..]);
    buf
  }

  /**
   * As written, the buffer has no terminating NUL whenever the file name
   * fills the room left after the base directory: `strncpy` does not
   * terminate a copy that reaches its bound.
   */
  lemma AsWrittenBufferUnterminated(baseDir: Option<string>, file: string)
    requires CString(file)
    requires baseDir.Some? ==> CString(baseDir.value) && |baseDir.value| + 1 <= BufferSize
    requires |file| >= BufferSize - DirLength(baseDir)
    ensures TerminatedPrefix(FilenameBuffer(baseDir, file)).None?
  {
    var buf := FilenameBuffer(baseDir, file);
    var dirlen := DirLength(baseDir);
    forall k | 0 <= k < BufferSize ensures buf[k] != '\0' {
      if k < dirlen {
        assert buf[k] == (baseDir.value + "/")[k];
      }
    }
  }

  /** A concrete input: base directory "/data" and a 1018-character file name. */
  lemma AsWrittenBufferExample()
    ensures TerminatedPrefix(FilenameBuffer(Some("/data"), seq(1018, _ => 'a'))).None?
  {
    AsWrittenBufferUnterminated(Some("/data"), seq(1018, _ => 'a'));
  }

  /** Where the file name leaves room for the NUL, the source and `RecordPath` agree. */
  lemma AsWrittenAgreesWhenFits(baseDir: Option<string>, file: string)
    requires CString(file)
    requires baseDir.Some? ==> CString(baseDir.value) && |baseDir.value| + 1 <= BufferSize
    requires |file| < BufferSize - DirLength(baseDir)
    ensures TerminatedPrefix(FilenameBuffer(baseDir, file)) == Some(RecordPath(baseDir, file))
    ensures RecordPath(baseDir, file) == FullPath(baseDir, file)
  {
    var buf := FilenameBuffer(baseDir, file);
    var full := FullPath(baseDir, file);
    var dirlen := DirLength(baseDir);
    assert |full| == dirlen + |file|;
    assert buf[..|full|] == full by {
      forall k | 0 <= k < |full| ensures buf[k] == full[k] {
        if k < dirlen {
          assert buf[k] == (baseDir.value + "/")[k];
        }
      }
    }
    assert CString(full) by {
      forall k | 0 <= k < |full| ensures full[k] != '\0' {
        if k < dirlen {
          assert buf[k] == (baseDir.value + "/")[k];
        }
      }
    }
    assert buf == full + ['\0'] + buf[|full| + 1..];
    TerminatedPrefixOf(full, buf[|full| + 1..]);
  }

  /**
   * One record: the class id shifted to 0-indexed, with no range check, and
   * the path of the entry's file.
   */
  function RecordFromEntry(entry: ListEntry, baseDir: Option<string>): (r: Categorized)
    ensures 0 <= r.category < ClassCount <==> 1 <= entry.classId <= ClassCount
    ensures r.category + 1 == entry.classId
    ensures r.path <= FullPath(baseDir, entry.file)
    ensures r.path == RecordPath(baseDir, entry.file)
    ensures |FullPath(baseDir, entry.file)| <= MaxPathLength ==> r.path == FullPath(baseDir, entry.file)
  {
    Categorized(entry.classId - 1, RecordPath(baseDir, entry.file))
  }

  /** The end-to-end example: line "3 cat.jpg" under "/data" gives label 2 and "/data/cat.jpg". */
  lemma CatExample()
    ensures RecordFromEntry(ListEntry(3, "cat.jpg"), Some("/data")) == Categorized(2, "/data/cat.jpg")
  {
  }

  /** The read loop: one record per entry, pushed in file order. */
  method ReadRecords(entries: seq<ListEntry>, baseDir: Option<string>) returns (records: seq<Categorized>)
    ensures |records| == |entries|
    ensures forall i :: 0 <= i < |entries| ==> records[i] == RecordFromEntry(entries[i], baseDir)
  {
    records := [];
    var i := 0;
    while i < |entries|
      invariant 0 <= i <= |entries|
      invariant |records| == i
      invariant forall k :: 0 <= k < i ==> records[k] == RecordFromEntry(entries[k], baseDir)
    {
      records := records + [RecordFromEntry(entries[i], baseDir)];
      i := i + 1;
    }
  }
}

=== FILE: network.dfy ===
/**
 * The ResNet-101 v1d classifier (`_imagenet_resnet101_v1d`): a stem of three
 * 3x3 convolutions and a max pool, four stages of bottleneck blocks, and a
 * head of global average pooling, flattening and a softmax dense layer.
 */
module Network {
  import opened Results
  import opened Layers
  import opened Bottleneck
  import opened Stage
  import opened ImageNet

  datatype Network = Network(stem: seq<Layer>, stages: seq<seq<Block>>, head: seq<Layer>)

  /** Bottleneck expansion used by every stage. */
  const Expansion: int := 4

  /** The classifier: 4 stem layers, 4 stages of 33 blocks in all, and a softmax head to 1000 classes. */
  function ResNet101V1d(): (net: Network)
    ensures |net.stem| == 4 && |net.stages| == 4 && BlockCount(net.stages) == 33
    ensures |net.head| == 3 && net.head[|net.head| - 1] == Dense(ClassCount, Softmax)
  {
    var net := Network(
      [ Convolution(1, 32, 3, 2, 1, BatchNorm, Relu, false),
        Convolution(1, 32, 3, 1, 1, BatchNorm, Relu, false),
        Convolution(1, 64, 3, 1, 1, BatchNorm, Relu, false),
        MaxPool(3, 2, 1) ],
      [ BlockLayer(64, Expansion, 1, 3),
        BlockLayer(128, Expansion, 2, 4),
        BlockLayer(256, Expansion, 2, 23),
        BlockLayer(512, Expansion, 2, 3) ],
      [ AveragePool(0), Flatten, Dense(ClassCount, Softmax) ]);
    BlockCountOfFour(net.stages);
    net
  }

  /** Shape after the stages, each fed the previous stage's output. */
  function CheckStages(stages: seq<seq<Block>>, s: Shape): Result<Shape, ShapeError>
    decreases |stages|
  {
    if |stages| == 0 then Ok(s)
    else
      var next :- CheckChain(stages[0], s);
      CheckStages(stages[1..], next)
  }

  /** Shape at the input of the head: what the global average pool reduces. */
  function CheckTrunk(net: Network, s: Shape): Result<Shape, ShapeError>
  {
    var stemOut :- ApplyAll(net.stem, s);
    CheckStages(net.stages, stemOut)
  }

  /** Shape of the network output. */
  function CheckNetwork(net: Network, s: Shape): Result<Shape, ShapeError>
  {
    var trunk :- CheckTrunk(net, s);
    ApplyAll(net.head, trunk)
  }

  /** Number of bottleneck blocks over all stages. */
  function BlockCount(stages: seq<seq<Block>>): nat
    decreases |stages|
  {
    if |stages| == 0 then 0 else |stages[0]| + BlockCount(stages[1..])
  }

  /** The block count of four stages is the sum of their lengths. */
  lemma BlockCountOfFour(stages: seq<seq<Block>>)
    requires |stages| == 4
    ensures BlockCount(stages) == |stages[0]| + |stages[1]| + |stages[2]| + |stages[3]|
  {
    var rest := stages[1..][1..][1..];
    assert rest[1..] == [] && rest[0] == stages[3];
    assert BlockCount(rest) == |stages[3]|;
    assert BlockCount(stages[1..][1..]) == |stages[2]| + |stages[3]|;
    assert BlockCount(stages[1..]) == |stages[1]| + |stages[2]| + |stages[3]|;
  }

  /**
   * Structure of the composed network: a stem of three 3x3 padding-1
   * BN+ReLU convolutions of widths 32, 32, 64 and strides 2, 1, 1, then a
   * 3x3 stride-2 padding-1 max pool; stages of bottleneck width 64, 128,
   * 256, 512 with expansion 4, stride 1, 2, 2, 2 and 3, 4, 23, 3 blocks (33
   * in all); a head of global average pooling, flattening and a softmax
   * dense layer to 1000 classes.
   */
  lemma ResNet101Structure()
    ensures var net := ResNet101V1d();
      && |net.stem| == 4
      && net.stem[0].filters == 32 && net.stem[1].filters == 32 && net.stem[2].filters == 64
      && StrideOf(net.stem[0]) == 2 && StrideOf(net.stem[1]) == 1 && StrideOf(net.stem[2]) == 1
      && net.stem[3].MaxPool? && StrideOf(net.stem[3]) == 2
      && |net.stages| == 4
      && |net.stages[0]| == 3 && |net.stages[1]| == 4 && |net.stages[2]| == 23 && |net.stages[3]| == 3
      && BlockCount(net.stages) == 33
      && net.head[|net.head| - 1] == Dense(ClassCount, Softmax)
      && (forall i :: 0 <= i < 3 ==>
            && net.stem[i].Convolution? && net.stem[i].kernel == 3 && net.stem[i].padding == 1
            && net.stem[i].norm == BatchNorm && net.stem[i].activation == Relu)
      && net.stem[3] == MaxPool(3, 2, 1)
      && (forall i :: 0 <= i < 4 ==>
            net.stages[i] == BlockLayer([64, 128, 256, 512][i], Expansion, [1, 2, 2, 2][i], [3, 4, 23, 3][i]))
      && (forall i, k :: 0 <= i < 4 && 0 <= k < |net.stages[i]| ==>
            && net.stages[i][k].spatial.Convolution?
            && net.stages[i][k].spatial.filters == [64, 128, 256, 512][i]
            && net.stages[i][k].expand.filters == 4 * [64, 128, 256, 512][i])
      && (forall i :: 0 <= i < 4 ==> MainStride(net.stages[i][0]) == [1, 2, 2, 2][i])
      && net.head == [AveragePool(0), Flatten, Dense(ClassCount, Softmax)]
  {
    var net := ResNet101V1d();
    assert net.stages[1..][1..][1..][1..] == [];
  }

  /**
   * Shape inference through the whole network from a 3-channel image: the
   * stem yields 64 channels at stride 4, the stages yield 256, 512, 1024 and
   * 2048 channels at strides 4, 8, 16 and 32, every residual add agrees, and
   * the output has 1000 channels. The product of declared strides up to the
   * average pool is 32 = 2 * 2 * 1 * 2 * 2 * 2.
   */
  lemma ResNet101Shapes()
    ensures var net := ResNet101V1d();
      && ApplyAll(net.stem, Shape(ImageChannels, 1)) == Ok(Shape(64, 4))
      && CheckChain(net.stages[0], Shape(64, 4)) == Ok(Shape(256, 4))
      && CheckChain(net.stages[1], Shape(256, 4)) == Ok(Shape(512, 8))
      && CheckChain(net.stages[2], Shape(512, 8)) == Ok(Shape(1024, 16))
      && CheckChain(net.stages[3], Shape(1024, 16)) == Ok(Shape(2048, 32))
      && CheckTrunk(net, Shape(ImageChannels, 1)) == Ok(Shape(2048, 32))
      && CheckNetwork(net, Shape(ImageChannels, 1)) == Ok(Shape(ClassCount, 32))
  {
    var net := ResNet101V1d();
    StageShape(64, Expansion, 1, 3, Shape(64, 4));
    StageShape(128, Expansion, 2, 4, Shape(256, 4));
    StageShape(256, Expansion, 2, 23, Shape(512, 8));
    StageShape(512, Expansion, 2, 3, Shape(1024, 16));
    var st := net.stages;
    assert st[1..][1..][1..][1..] == [];
    assert CheckStages(st[1..][1..][1..], Shape(1024, 16)) == Ok(Shape(2048, 32));
    assert CheckStages(st[1..][1..], Shape(512, 8)) == Ok(Shape(2048, 32));
    assert CheckStages(st[1..], Shape(256, 4)) == Ok(Shape(2048, 32));
    assert CheckStages(st, Shape(64, 4)) == Ok(Shape(2048, 32));
    var stem := net.stem;
    assert stem[1..][1..][1..][1..] == [];
    assert ApplyAll(stem[1..][1..][1..], Shape(64, 2)) == Ok(Shape(64, 4));
    assert ApplyAll(stem[1..][1..], Shape(32, 2)) == Ok(Shape(64, 4));
    assert ApplyAll(stem[1..], Shape(32, 2)) == Ok(Shape(64, 4));
    var head := net.head;
    assert head[1..][1..][1..] == [];
    assert ApplyAll(head[1..][1..], Shape(2048, 32)) == Ok(Shape(ClassCount, 32));
  }
}

=== FILE: results.dfy ===
/** Failure-compatible wrappers shared by the other modules. */
module Results {

  /** An optional value; `None` stands for an absent (NULL) argument. */
  datatype Option<+T> = None | Some(value: T)

  /** The outcome of a check: a value, or the error that stopped it. */
  datatype Result<+T, +E> = Ok(value: T) | Err(error: E) {

    predicate IsFailure() {
      Err?
    }

    function PropagateFailure<U>(): Result<U, E>
      requires Err?
    {
      Err(error)
    }

    function Extract(): T
      requires Ok?
    {
      value
    }
  }
}

=== FILE: stage.dfy ===
/**
 * One stage of the network (`_block_layer_new`): a projected first block
 * carrying the stage stride, followed by identity-shortcut blocks of stride
 * 1, each fed the previous block's output.
 */
module Stage {
  import opened Results
  import opened Layers
  import opened Bottleneck

  /**
   * The loop `for (i = 1; i < blocks; i++)` runs `blocks - 1` times when
   * `blocks >= 1` and not at all otherwise, so a stage always holds at least
   * its first block.
   */
  function BlockLayer(filters: int, expansion: int, strides: int, blocks: int): (r: seq<Block>)
    ensures |r| == if blocks < 1 then 1 else blocks
    ensures r[0].shortcut.Projection? && MainStride(r[0]) == strides
    ensures forall k :: 1 <= k < |r| ==> r[k].shortcut.IdentityShortcut? && MainStride(r[k]) == 1
    ensures forall k :: 0 <= k < |r| ==> r[k].expand.Convolution? && r[k].expand.filters == Width(filters, expansion)
  {
    var rest := if blocks < 1 then 0 else blocks - 1;
    [BuildingBlock(filters, expansion, strides, true)]
      + seq(rest, _ => BuildingBlock(filters, expansion, 1, false))
  }

  /** Shape after a chain of blocks, each applied to the previous output. */
  function CheckChain(blocks: seq<Block>, s: Shape): Result<Shape, ShapeError>
    decreases |blocks|
  {
    if |blocks| == 0 then Ok(s)
    else
      var next :- CheckBlock(blocks[0], s);
      CheckChain(blocks[1..], next)
  }

  /**
   * A chain of identity-shortcut stride-1 blocks fed `filters * expansion`
   * channels is well formed: every add in it sees matching operands, and the
   * shape passes through unchanged.
   */
  lemma {:induction false} IdentityChainShape(blocks: seq<Block>, filters: int, expansion: int, s: Shape)
    requires forall k :: 0 <= k < |blocks| ==> blocks[k] == BuildingBlock(filters, expansion, 1, false)
    requires s.channels == Width(filters, expansion)
    ensures CheckChain(blocks, s) == Ok(s)
    decreases |blocks|
  {
    if |blocks| > 0 {
      assert CheckBlock(blocks[0], s) == Ok(s);
      IdentityChainShape(blocks[1..], filters, expansion, s);
    }
  }

  /**
   * Whatever the block count, a stage is well formed on any input and its
   * output has `filters * expansion` channels at the input stride times the
   * stage stride.
   */
  lemma StageShape(filters: int, expansion: int, strides: int, blocks: int, s: Shape)
    ensures CheckChain(BlockLayer(filters, expansion, strides, blocks), s)
         == Ok(Shape(Width(filters, expansion), s.stride * strides))
  {
    var r := BlockLayer(filters, expansion, strides, blocks);
    var mid := Shape(Width(filters, expansion), s.stride * strides);
    ProjectionBlockShape(filters, expansion, strides, s);
    IdentityChainShape(r[1..], filters, expansion, mid);
  }

  /**
   * Every block after the first is fed the previous block's output, which
   * has `filters * expansion` channels at the stage's stride: the width its
   * identity shortcut needs at the add.
   */
  lemma StageBlockInputs(filters: int, expansion: int, strides: int, blocks: int, s: Shape)
    ensures var r := BlockLayer(filters, expansion, strides, blocks);
      forall k :: 1 <= k <= |r| ==>
        CheckChain(r[..k], s) == Ok(Shape(Width(filters, expansion), s.stride * strides))
  {
    var r := BlockLayer(filters, expansion, strides, blocks);
    var mid := Shape(Width(filters, expansion), s.stride * strides);
    forall k | 1 <= k <= |r| ensures CheckChain(r[..k], s) == Ok(mid) {
      ProjectionBlockShape(filters, expansion, strides, s);
      assert r[..k][0] == r[0];
      IdentityChainShape(r[..k][1..], filters, expansion, mid);
    }
  }
}
